=== FILE: README.md ===
# Path repository and tag-first version guesser, in Dafny

This project models two pieces of a Composer plugin that treats directories
on disk as installable packages.

- **`VersionGuesser`** (`src/Composer/VersionGuesser.php`) guesses a package
  version from git. `guessVersion` gives up when `proc_open` is missing or
  the process is a shell completion. Otherwise it tries the nearest tag
  (`git describe --tags --abbrev=0`), normalised by the semantic-version
  parser and then post-processed. When no tag normalises, it defers to
  Composer's stock branch-based guesser. `postprocess` drops feature keys
  that duplicate the primary ones. It also renders every maximal run of the
  `.9999999` placeholder of a `-dev` version as `.x` in the pretty forms.
- **`PathRepository`** (`src/Composer/PathRepository.php`) expands its
  `url` pattern with `glob` (`getUrlMatches`). A pattern that matches
  nothing is an error, unless the pattern has a wildcard and its literal
  prefix directory exists. `initialize` turns each matched directory's
  `composer.json` into one package record, or two when a feature branch is
  guessed. Each record gets a `path` dist with a reference chosen by the
  reference mode. It also gets the `symlink`/`relative` transport options
  and a version chosen by priority: per-name override or declared version,
  then the root version, then the guess, then `dev-main`.

Everything the code reads from outside is an input of a pure function:
- `glob`, `realpath`, `file_exists`/`file_get_contents` and `is_dir`;
- the exit codes and outputs of the git commands;
- `COMPOSER_ROOT_VERSION`, whether `proc_open` exists and whether the
  process is a shell completion;
- the library functions `JsonFile::parseJson`, `sha1`, `serialize`, the
  version normaliser and `ArrayLoader::load`.

The model's modules:
- `Wrappers`: `Option` and `Result`.
- `Php`: the PHP built-ins the code relies on (`empty()` and truthiness,
  `trim`, `rtrim`, `str_replace`, the `[*{}]` test and POSIX `dirname`).
- `NineRuns`: the `.9999999` rewrite.
- `VersionGuesser` and `PathRepository`: the two classes.
- `PathRepositoryProperties`: properties of the records, per directory and
  for the whole repository.

Behaviour of the code that is easy to miss:
- The stock guesser's answer is returned as it is. It is not
  post-processed by this class (`VersionGuesser.php:59`).
- A `reference` option other than `none`, `config` or `auto` sets no
  reference key at all. It is not treated like `config`
  (`PathRepository.php:117-122`).
- A version declared in `composer.json` counts as already set. It blocks
  the root version and the guess, and a per-name override replaces it
  (`PathRepository.php:127-147`).
- Two records of one directory can carry the same version. This happens
  whenever the guess that decides has a truthy pretty version equal to its
  feature pretty version, whatever its feature version is. Both records are
  emitted and are identical (`PathRepository.php:149-156`). Nothing in this
  class drops the duplicate.
- Truthiness follows PHP: the string `"0"` is empty. A root version, pretty
  version or feature version of `"0"` counts as absent.

## Model

| member | source | states |
|---|---|---|
| `Php.Trim` | src/Composer/VersionGuesser.php:68-70 | `trim` returns the infix of its input that starts where `ltrim` stops, has only trim space around it, and neither starts nor ends with trim space |
| `Php.TrimIdempotent` | src/Composer/VersionGuesser.php:68-70 | trimming an already trimmed string changes nothing |
| `Php.ReplaceChar` | src/Composer/PathRepository.php:187 | `str_replace` of the separator by `/` keeps the length and replaces exactly the separator characters |
| `Php.TrimTrailingSlashes` | src/Composer/PathRepository.php:187 | `rtrim($s, '/')` leaves a prefix that does not end in `/`, and only slashes were removed |
| `Php.HasWildcard` | src/Composer/PathRepository.php:89-91 | the pattern test `[*{}]`: some character of the path is `*`, `{` or `}` (a definition; no contract) |
| `Php.Dirname` | src/Composer/PathRepository.php:91-93 | `dirname` of a non-empty path is non-empty and does not end in a slash unless it is `/`; it is `/` only for a path of slashes and at most one component after a leading slash; it is `.` for a relative path of one component; otherwise the path, without its trailing slashes, is the result, one or more slashes and one non-empty last component |
| `Php.DirnameKeepsRoot` | src/Composer/PathRepository.php:91-93 | the `dirname` of an absolute path is absolute and never `.`, so stripping an absolute pattern never leaves the relative `.` |
| `Php.DirnameShrinks` | src/Composer/PathRepository.php:91-93 | on a path with a wildcard, `dirname` strictly lowers a well-founded measure, so the stripping loop terminates |
| `Php.StripWildcards` | src/Composer/PathRepository.php:89-94 | the stripping loop ends with a path free of `*`, `{` and `}` that is `.` or a prefix of the pattern, and leaves a wildcard-free pattern unchanged; for a pattern with a wildcard it is the parent directory before any wildcard: it is `.`, `/`, or a path without a trailing slash that the pattern continues with a slash, and the component right after it (for `.`, the first component) holds a wildcard; for an absolute pattern it is absolute and never `.` (`/a*` gives `/`) |
| `NineRuns.HasRun` | src/Composer/VersionGuesser.php:89-93 | the match test `\.9{7}` (a definition; no contract); `NineRuns.HasRunIff` pins its meaning |
| `NineRuns.HasRunIff` | src/Composer/VersionGuesser.php:89-93 | the test holds exactly when a `.9999999` segment begins at some index of the string |
| `NineRuns.SkipRuns` | src/Composer/VersionGuesser.php:90 | skipping the leading run of placeholder segments leaves a suffix that does not start with one, shorter whenever there was one |
| `NineRuns.SkipRunsDropsMaximalRun` | src/Composer/VersionGuesser.php:90 | skipping a run of `k` segments that no further segment follows leaves exactly what follows the run |
| `NineRuns.Collapse` | src/Composer/VersionGuesser.php:90 | the `(\.9{7})+` to `.x` rewrite; its own contract only bounds the length by the input's; what it rewrites is stated by `CollapseHasNoRun`, `CollapseIdentity`, `CollapseIdempotent`, `CollapseCopiesPrefix`, `CollapseRunAfter` and `CollapseDevVersion` |
| `NineRuns.CollapseHasNoRun` | src/Composer/VersionGuesser.php:90 | the `(\.9{7})+` to `.x` rewrite leaves no `.9999999` anywhere |
| `NineRuns.CollapseIdentity` | src/Composer/VersionGuesser.php:89-91 | a string without `.9999999` is left unchanged by the rewrite |
| `NineRuns.CollapseIdempotent` | src/Composer/VersionGuesser.php:90 | rewriting twice gives the same as rewriting once |
| `NineRuns.CollapseMaximalRun` | src/Composer/VersionGuesser.php:90 | a maximal run of one or more placeholder segments at the start of the string becomes exactly one `.x`, and the rewrite goes on after it |
| `NineRuns.CollapseCopiesPrefix` | src/Composer/VersionGuesser.php:90 | a prefix without `.9999999` in front of a dot is copied unchanged, and the rewrite goes on at the dot |
| `NineRuns.CollapseRunAfter` | src/Composer/VersionGuesser.php:90 | after any prefix without `.9999999`, a maximal run of one or more segments becomes exactly one `.x`: the prefix is copied and the rewrite goes on after the run, so every maximal run of a string is rewritten this way in turn |
| `NineRuns.CollapseDevVersion` | src/Composer/VersionGuesser.php:89-91 | any prefix without `.9999999`, then one or more segments, then `-dev` renders as the prefix followed by `.x-dev`; `10.9999999-dev` gives `10.x-dev` and `1.9999999.9999999.9999999-dev` gives `1.x-dev` |
| `NineRuns.CollapseVersionExample` | src/Composer/VersionGuesser.php:89-91 | for a single-character major `M` and minor `m`, neither of them a dot, `M.m` followed by one or more `.9999999` and then `-dev` renders as `M.m.x-dev`; `1.2.9999999.9999999-dev` gives `1.2.x-dev` |
| `VersionGuesser.Postprocess` | src/Composer/VersionGuesser.php:83-98 | never changes `version`; removes both feature keys exactly when the feature version is non-empty and both feature forms equal the primary ones, checked before any rewrite; a `-dev` version holding `.9999999` gets its runs collapsed as pretty form, otherwise the pretty form is kept; the feature pretty form is rewritten from the feature version only when that is non-empty |
| `VersionGuesser.GuessGitTagVersion` | src/Composer/VersionGuesser.php:62-76 | a guess exists exactly when `git describe` exits 0 and the trimmed tag normalises; it is the normalised tag with the trimmed tag as pretty form and no feature keys |
| `VersionGuesser.GuessVersion` | src/Composer/VersionGuesser.php:42-60 | no guess without `proc_open` or in shell completion; otherwise the post-processed tag guess when its normalised version is non-empty, else the stock guesser's answer |
| `VersionGuesser.BailOutIgnoresGit` | src/Composer/VersionGuesser.php:44-52 | when bailing out, the answer is null whatever git and the stock guesser would say |
| `VersionGuesser.TagGuessShape` | src/Composer/VersionGuesser.php:54-57 | a tag guess reaches the caller normalised, without feature keys, with the trimmed tag as pretty form or, for a `-dev` placeholder version, the collapsed form free of `.9999999` |
| `VersionGuesser.FallbackNotPostprocessed` | src/Composer/VersionGuesser.php:54-59 | after a failed describe or a tag that does not normalise to a non-empty version, the stock guesser's answer is returned unchanged |
| `VersionGuesser.PostprocessIdempotentWithoutFeature` | src/Composer/VersionGuesser.php:70 | for data without feature keys, the only shape the tag path produces, post-processing is idempotent |
| `VersionGuesser.PostprocessIdempotentIff` | src/Composer/VersionGuesser.php:83-98 | a second post-processing changes the data exactly when the first one left feature keys that duplicate the primary ones |
| `VersionGuesser.PostprocessNotIdempotent` | src/Composer/VersionGuesser.php:85-95 | with distinct pretty forms of the same `-dev` placeholder version, the first pass makes them equal and the second drops the feature keys |
| `PathRepository.NewRepository` | src/Composer/PathRepository.php:70-74 | the constructor keeps every given option and sets `relative`, when it is not set, to whether the url is not absolute, so `relative` is always set |
| `PathRepository.NormalizeMatch` | src/Composer/PathRepository.php:186-188 | a glob result with the separator replaced by `/` and all trailing slashes removed: no trailing `/`, no separator left, and only slashes or separators dropped |
| `PathRepository.GetUrlMatches` | src/Composer/PathRepository.php:175-189 | braces without `GLOB_BRACE` are refused and nothing else is; otherwise one normalised match per glob result, in order, none ending in `/` |
| `PathRepository.DistReference` | src/Composer/PathRepository.php:117-122 | mode `none` gives null; `config` the content hash; `auto` the trimmed last commit when `.git` exists and `git log` succeeds, else the content hash; any other mode no key |
| `PathRepository.TransportOptions` | src/Composer/PathRepository.php:125 | the transport options hold exactly the configured `symlink` and `relative` entries, with their values |
| `PathRepository.VersionOverride` | src/Composer/PathRepository.php:127-129 | the override exists exactly when the manifest has a name that the `versions` option maps, and it is that mapping |
| `PathRepository.ReferenceMode` | src/Composer/PathRepository.php:117 | the `reference` option, `auto` when it is not set (a definition; no contract) |
| `PathRepository.RootVersionApplies` | src/Composer/PathRepository.php:132-137 | the root version is carried over when `COMPOSER_ROOT_VERSION` is truthy and both `git rev-parse HEAD` calls succeed with equal output (a definition; no contract) |
| `PathRepository.GuessedVersions` | src/Composer/PathRepository.php:147-158 | a guess with a truthy pretty version leads to the feature version and then the pretty version, or the pretty version alone; anything else leads to `dev-main` |
| `PathRepository.EmittedVersions` | src/Composer/PathRepository.php:127-160 | the first applicable rule decides the versions: the override or the declared version, then the root version when both HEADs agree, then the guess, then `dev-main`; always one or two versions |
| `PathRepository.RecordsFor` | src/Composer/PathRepository.php:113-160 | a directory gives one or two records, one per emitted version and in that order, all with the same manifest, the same dist block (url and reference) and the same transport options |
| `PathRepository.LoadRecords` | src/Composer/PathRepository.php:151-166 | loading succeeds exactly when every record loads; a feature record's failure escapes as it is, the primary record's is wrapped with the manifest path |
| `PathRepository.LoadDirectory` | src/Composer/PathRepository.php:103-112 | a directory without `composer.json` gives no record; a manifest that does not parse is an error naming the file; at most two records otherwise |
| `PathRepository.LoadAll` | src/Composer/PathRepository.php:103-167 | all directories load or the first failing one's error is returned; on success the records are exactly those of each matched directory, directory by directory in glob order |
| `PathRepository.Initialize` | src/Composer/PathRepository.php:82-101 | a brace pattern without `GLOB_BRACE` fails; with no match, no packages exactly when the pattern has a wildcard and its stripped prefix is a directory, else "does not exist"; with matches, the directories are loaded |
| `PathRepositoryProperties.LoadedRecords` | src/Composer/PathRepository.php:103-166 | a directory that loads yields exactly the records built for it from its manifest |
| `PathRepositoryProperties.RecordCount` | src/Composer/PathRepository.php:147-163 | a directory with a manifest yields one record, or two when the guess decides and has a truthy pretty version and a truthy feature pretty version |
| `PathRepositoryProperties.FeatureRecordFirst` | src/Composer/PathRepository.php:150-155 | the feature record comes first, the primary second, and they differ only in their version |
| `PathRepositoryProperties.SameVersionTwice` | src/Composer/PathRepository.php:149-156 | a deciding guess whose feature pretty version equals its truthy pretty version gives two identical records |
| `PathRepositoryProperties.OverrideWins` | src/Composer/PathRepository.php:127-129 | a per-name override is the version of the single record, whatever git, the root version or the manifest say |
| `PathRepositoryProperties.RootVersionCarryOver` | src/Composer/PathRepository.php:131-140 | with nothing preset, the root version is used exactly when `COMPOSER_ROOT_VERSION` is truthy and both `git rev-parse HEAD` calls succeed with equal output; otherwise the guess decides |
| `PathRepositoryProperties.DevMainDefault` | src/Composer/PathRepository.php:156-158 | a directory outside git with no preset version and no stock guess gets the single version `dev-main` |
| `PathRepositoryProperties.TagBecomesVersion` | src/Composer/PathRepository.php:147-155 | with nothing preset or carried over, a truthy trimmed tag that normalises to a version that is not a `-dev` version holding `.9999999` is the record's version, trimmed |
| `PathRepositoryProperties.ReferenceNoneIsNull` | src/Composer/PathRepository.php:117-119 | mode `none` gives every record a null reference whatever the git state |
| `PathRepositoryProperties.AutoReferenceIsCommit` | src/Composer/PathRepository.php:142-145 | mode `auto` with `.git` and a successful `git log` gives the trimmed commit, even when the version came from an override |
| `PathRepositoryProperties.ContentHashReference` | src/Composer/PathRepository.php:120-121 | mode `config`, and `auto` without a usable `git log`, give the hash of the manifest text followed by the serialised options |
| `PathRepositoryProperties.OtherReferenceModeSetsNothing` | src/Composer/PathRepository.php:117-122 | any other reference mode, strings included, sets no reference key |
| `PathRepositoryProperties.TransportOptionsOfConstructed` | src/Composer/PathRepository.php:70-74 | every record of a constructed repository has `relative` among its transport options, `symlink` exactly when configured, and nothing else |
| `PathRepositoryProperties.InitializeReferenceNone` | src/Composer/PathRepository.php:103-122 | with mode `none`, no record of the whole repository has a non-null reference |
| `PathRepositoryProperties.InitializeAtMostTwoPerDirectory` | src/Composer/PathRepository.php:103-167 | a repository that loads holds at most two records per matched directory |
| `PathRepositoryProperties.LiteralMissingUrlFails` | src/Composer/PathRepository.php:88-101 | a pattern without wildcards that matches nothing raises "does not exist" |

## Left out

- Filesystem access (`glob`, `realpath`, `file_exists`, `file_get_contents`, `is_dir`) is I/O. Each call becomes an input of `Environment`. The model assumes `glob` returns a list: a `false` return, which would make `array_map` throw, is not modelled.
- Git and `ProcessExecutor` (including `GitUtil::cleanEnv` and the no-show-signature flag) are subprocess I/O. Each git call is an (exit code, output) input. Whether a command actually runs is not observable in a pure model, so the short-circuit order of the calls is not modelled.
- `JsonFile::parseJson`, `sha1`, `serialize`, the semantic-version `normalize` and `ArrayLoader::load` are library code. They are uninterpreted function inputs. The loader's product is not modelled: `Initialize` returns the arrays handed to it.
- The stock `parent::guessVersion` is library code that is not part of this model. Its answer is an input per directory.
- `Platform::getEnv`, `Platform::isInputCompletionProcess` and `function_exists('proc_open')` are environment reads. They are inputs.
- Constructor plumbing is left out. `Platform::expandPath` and `Filesystem::isAbsolutePath` are inputs (the expanded url and a boolean). `$repoConfig['url']` is assumed to be present.
- `NineRuns.Collapse`: its own contract only bounds the length of the result. What the rewrite does is stated by lemmas about it instead. They say that a prefix without `.9999999` is copied, that a maximal run after such a prefix becomes one `.x` with the rewrite going on after it, that no segment survives, and that a string without a segment is unchanged.
- `Php.Dirname` models POSIX `dirname` with `/` only. The Windows forms (backslashes, drive letters) are not modelled.
- `VersionGuesser.VersionData` carries only the four keys the code reads. Other keys of the stock guesser's answer, such as `commit`, are passed through by the code and are not modelled.
- `PathRepository.Manifest` keeps a manifest's name and declared version and leaves every other key opaque. A non-string `name` or `version` in a manifest is not modelled.
- `PathRepository.Initialize` returns only the error when a directory fails. In the source, the records added before the failure, including a feature record added before its primary record fails, stay in the repository's package list: the list is reset only on entry (src/Composer/PathRepository.php:84) and records are added as they load (lines 153 and 163). The model does not keep that partial state.

=== FILE: nine_runs.dfy ===
/** The `.9999999` placeholder of normalised version strings and the
    rewrite that renders it for humans. The version normaliser writes an
    unbounded component as seven nines, so `1.2.x-dev` normalises to
    `1.2.9999999.9999999-dev`; the guesser turns every maximal run of
    `.9999999` back into `.x` (`Preg::replace('{(\.9{7})+}', '.x', $v)`). */
module NineRuns {

  /** One placeholder segment: a dot followed by seven nines. */
  const Run: string := ".9999999"

  /** The seven nines of a segment, without its dot. */
  const Nines: string := "9999999"

  predicate StartsWithRun(s: string) {
    |s| >= |Run| && s[..|Run|] == Run
  }

  /** `Preg::isMatch('{\.9{7}}', $s)`: a placeholder segment occurs somewhere. */
  predicate HasRun(s: string) {
    StartsWithRun(s) || (|s| > 0 && HasRun(s[1..]))
  }

  /** A placeholder segment begins at index `i` of `s`. */
  predicate RunAt(s: string, i: nat) {
    i + |Run| <= |s| && s[i..i + |Run|] == Run
  }

  /** The match test holds exactly when a placeholder segment begins at
      some index. */
  lemma {:induction false} HasRunIff(s: string)
    ensures HasRun(s) <==> exists i: nat :: i < |s| && RunAt(s, i)
    decreases |s|
  {
    if StartsWithRun(s) {
      assert RunAt(s, 0);
    } else if |s| > 0 {
      var u := s[1..];
      HasRunIff(u);
      if HasRun(u) {
        var i: nat :| i < |u| && RunAt(u, i);
        assert u[i..i + |Run|] == s[i + 1..i + 1 + |Run|];
        assert RunAt(s, i + 1);
      }
      if exists i: nat :: i < |s| && RunAt(s, i) {
        var i: nat :| i < |s| && RunAt(s, i);
        assert i != 0 by {
          if i == 0 {
            assert false;
          }
        }
        assert u[i - 1..i - 1 + |Run|] == s[i..i + |Run|];
        assert RunAt(u, i - 1);
      }
    }
  }

  /** `k` placeholder segments in a row, followed by `t`. */
  function RunsThen(k: nat, t: string): string {
    if k == 0 then t else Run + RunsThen(k - 1, t)
  }

  /** Drops the maximal run of placeholder segments at the front of `s`. */
  function SkipRuns(s: string): (r: string)
    ensures |r| <= |s| && r == s[|s| - |r|..]
    ensures !StartsWithRun(r)
    ensures StartsWithRun(s) ==> |r| < |s|
    decreases |s|
  {
    if StartsWithRun(s) then SkipRuns(s[|Run|..]) else s
  }

  /** `Preg::replace('{(\.9{7})+}', '.x', $s)`: scanning left to right,
      each maximal run of placeholder segments becomes `.x` and every other
      character is copied. */
  function Collapse(s: string): (r: string)
    ensures |r| <= |s|
    decreases |s|
  {
    if s == [] then []
    else if StartsWithRun(s) then ".x" + Collapse(SkipRuns(s))
    else [s[0]] + Collapse(s[1..])
  }

  /** The first character of the rewrite: `.` of a `.x`, or a copied one. */
  lemma CollapseHead(u: string)
    requires u != []
    ensures Collapse(u) != []
    ensures Collapse(u)[0] == (if StartsWithRun(u) then '.' else u[0])
  {
  }

  /** Every character is a nine. */
  predicate AllNines(s: string) {
    forall i :: 0 <= i < |s| ==> s[i] == '9'
  }

  /** If the output of `Collapse` begins with nines, the input begins with
      the same nines: a `.x` never contributes a nine. */
  lemma {:induction false} CollapseLeadingNines(u: string, k: nat)
    requires k <= |Collapse(u)| && AllNines(Collapse(u)[..k])
    ensures k <= |u| && u[..k] == Collapse(u)[..k]
    decreases k
  {
    if k > 0 {
      assert Collapse(u)[..k][0] == Collapse(u)[0];
      CopiedHead(u);
      var t := Collapse(u[1..]);
      ConsPrefix(u[0], t, k);
      NinesTail(u[0], t[..k - 1]);
      CollapseLeadingNines(u[1..], k - 1);
      HeadPrefix(u, k);
    }
  }

  /** The nines after a nine are nines. */
  lemma NinesTail(x: char, a: string)
    requires AllNines([x] + a)
    ensures AllNines(a)
  {
    forall i | 0 <= i < |a|
      ensures a[i] == '9'
    {
      assert a[i] == ([x] + a)[i + 1];
    }
  }

  /** An output that does not begin with a dot begins with a copied
      character. */
  lemma CopiedHead(u: string)
    requires Collapse(u) != [] && Collapse(u)[0] != '.'
    ensures u != [] && !StartsWithRun(u)
    ensures Collapse(u) == [u[0]] + Collapse(u[1..])
  {
    CollapseHead(u);
  }

  /** The first `k` characters of `a` are its head and `k - 1` more. */
  lemma HeadPrefix(a: string, k: nat)
    requires 1 <= k <= |a|
    ensures a[..k] == [a[0]] + a[1..][..k - 1]
  {
  }

  /** The first `k` characters of `[x] + a`. */
  lemma ConsPrefix(x: char, a: string, k: nat)
    requires 1 <= k <= |a| + 1
    ensures ([x] + a)[..k] == [x] + a[..k - 1]
  {
  }

  /** A segment behind one character `c` means `c` is the dot and the
      seven characters after it are nines. */
  lemma SegmentParts(c: char, x: string)
    requires StartsWithRun([c] + x)
    ensures c == '.' && |x| >= |Nines| && AllNines(x[..|Nines|])
  {
    var r := [c] + x;
    assert r[..|Run|] == Run;
    assert c == r[..|Run|][0];
    assert x[..|Nines|] == r[..|Run|][1..];
    assert Run[1..] == Nines;
  }

  /** A dot followed by seven nines starts a segment. */
  lemma SegmentFromParts(u: string)
    requires |u| >= |Nines| && AllNines(u[..|Nines|])
    ensures StartsWithRun(['.'] + u)
  {
    var r := ['.'] + u;
    assert r[..|Run|] == ['.'] + u[..|Nines|];
    assert u[..|Nines|] == Nines;
  }

  /** A segment at the front of a copied character followed by the rewrite
      of the rest was already a segment of the input: a `.x` never supplies
      a nine. */
  lemma RunThroughCopy(s: string)
    requires s != [] && StartsWithRun([s[0]] + Collapse(s[1..]))
    ensures StartsWithRun(s)
  {
    var u := s[1..];
    SegmentParts(s[0], Collapse(u));
    CollapseLeadingNines(u, |Nines|);
    SegmentFromParts(u);
    assert s == [s[0]] + u;
  }

  /** Copying a character that does not start a segment in front of the
      rewrite of the rest cannot start a segment either. */
  lemma CopyStartsNoRun(s: string)
    requires s != [] && !StartsWithRun(s)
    ensures !StartsWithRun([s[0]] + Collapse(s[1..]))
  {
    if StartsWithRun([s[0]] + Collapse(s[1..])) {
      RunThroughCopy(s);
      assert false;
    }
  }

  /** Prepending `.x` cannot create a placeholder segment. */
  lemma DotXKeepsNoRun(x: string)
    requires !HasRun(x)
    ensures !HasRun(".x" + x)
  {
    var y := ".x" + x;
    assert !StartsWithRun(y) by {
      if |y| >= |Run| {
        assert y[..|Run|][1] == 'x';
      }
    }
    assert y[1..] == "x" + x;
    assert !StartsWithRun("x" + x) by {
      if |"x" + x| >= |Run| {
        assert ("x" + x)[..|Run|][0] == 'x';
      }
    }
    assert ("x" + x)[1..] == x;
  }

  /** The rewritten string contains no `.9999999` at all. */
  lemma {:induction false} CollapseHasNoRun(s: string)
    ensures !HasRun(Collapse(s))
    decreases |s|
  {
    if s == [] {
    } else if StartsWithRun(s) {
      CollapseHasNoRun(SkipRuns(s));
      DotXKeepsNoRun(Collapse(SkipRuns(s)));
    } else {
      var u := s[1..];
      var x := Collapse(u);
      CollapseHasNoRun(u);
      CopyStartsNoRun(s);
      var r := [s[0]] + x;
      assert r[1..] == x;
    }
  }

  /** A string without placeholder segments is left as it is. */
  lemma {:induction false} CollapseIdentity(s: string)
    requires !HasRun(s)
    ensures Collapse(s) == s
    decreases |s|
  {
    if s != [] {
      CollapseIdentity(s[1..]);
    }
  }

  /** Rewriting twice is rewriting once. */
  lemma CollapseIdempotent(s: string)
    ensures Collapse(Collapse(s)) == Collapse(s)
  {
    CollapseHasNoRun(s);
    CollapseIdentity(Collapse(s));
  }

  /** Skipping past one leading segment does not change where skipping ends. */
  lemma SkipRunsPastRun(rest: string)
    ensures SkipRuns(Run + rest) == SkipRuns(rest)
  {
    var s := Run + rest;
    assert s[..|Run|] == Run;
    assert s[|Run|..] == rest;
  }

  /** Skipping drops all `k` segments of a run that no further segment follows. */
  lemma {:induction false} SkipRunsDropsMaximalRun(k: nat, t: string)
    requires !StartsWithRun(t)
    ensures SkipRuns(RunsThen(k, t)) == t
  {
    if k == 0 {
      assert RunsThen(k, t) == t;
    } else {
      var rest := RunsThen(k - 1, t);
      assert RunsThen(k, t) == Run + rest;
      SkipRunsPastRun(rest);
      SkipRunsDropsMaximalRun(k - 1, t);
    }
  }

  /** A maximal run of `k >= 1` segments is replaced by exactly one `.x`. */
  lemma CollapseMaximalRun(k: nat, t: string)
    requires k >= 1 && !StartsWithRun(t)
    ensures Collapse(RunsThen(k, t)) == ".x" + Collapse(t)
  {
    var s := RunsThen(k, t);
    assert s == Run + RunsThen(k - 1, t);
    assert s[..|Run|] == Run;
    SkipRunsDropsMaximalRun(k, t);
  }

  /** A run of `k >= 1` segments after any prefix free of segments becomes
      exactly one `.x`: the prefix is copied, the run is replaced, and the
      rewrite goes on after it. */
  lemma CollapseRunAfter(p: string, k: nat, t: string)
    requires !HasRun(p) && k >= 1 && !StartsWithRun(t)
    ensures Collapse(p + RunsThen(k, t)) == p + ".x" + Collapse(t)
  {
    var x := RunsThen(k, t);
    RunsThenStartsWithDot(k, t);
    CollapseCopiesPrefix(p, x);
    CollapseMaximalRun(k, t);
    Assoc(p, ".x", Collapse(t));
  }

  /** Any prefix free of segments followed by one or more segments and
      `-dev` renders with `.x-dev`: `10.9999999-dev` gives `10.x-dev` and
      `1.9999999.9999999.9999999-dev` gives `1.x-dev`. */
  lemma CollapseDevVersion(p: string, k: nat)
    requires !HasRun(p) && k >= 1
    ensures Collapse(p + RunsThen(k, "-dev")) == p + ".x-dev"
  {
    ShortHasNoRun("-dev");
    CollapseIdentity("-dev");
    assert !StartsWithRun("-dev");
    CollapseRunAfter(p, k, "-dev");
  }

  /** A run of one or more segments starts with a dot. */
  lemma RunsThenStartsWithDot(k: nat, t: string)
    requires k >= 1
    ensures RunsThen(k, t) != [] && RunsThen(k, t)[0] == '.'
  {
    assert RunsThen(k, t) == Run + RunsThen(k - 1, t);
  }

  /** A prefix free of segments in front of a dot is copied unchanged: no
      segment can start inside it. */
  lemma {:induction false} CollapseCopiesPrefix(p: string, x: string)
    requires !HasRun(p) && x != [] && x[0] == '.'
    ensures Collapse(p + x) == p + Collapse(x)
    decreases |p|
  {
    if p == [] {
      assert p + x == x;
    } else {
      NoRunBeforeDot(p, x);
      CollapseCopiesPrefix(p[1..], x);
      CopyPrefixStep(p, x);
    }
  }

  /** One step of copying a prefix: its first character is copied and the
      rest of it is copied by the rewrite of what follows. */
  lemma CopyPrefixStep(p: string, x: string)
    requires p != [] && !StartsWithRun(p + x)
    requires Collapse(p[1..] + x) == p[1..] + Collapse(x)
    ensures Collapse(p + x) == p + Collapse(x)
  {
    var c, q := p[0], p[1..];
    assert [c] + q == p;
    ConsAssoc(c, q, x);
    CopyStep(c, q + x);
    ConsAssoc(c, q, Collapse(x));
  }

  /** Concatenation is associative. */
  lemma Assoc(a: string, b: string, c: string)
    ensures a + (b + c) == a + b + c
  {
  }

  /** Putting a character in front of a concatenation. */
  lemma ConsAssoc(c: char, q: string, y: string)
    ensures [c] + (q + y) == ([c] + q) + y
  {
  }

  /** A non-empty prefix free of segments, followed by a dot, does not
      start with a segment: the dot falls where the segment has a nine. */
  lemma NoRunBeforeDot(p: string, x: string)
    requires p != [] && !HasRun(p) && x != [] && x[0] == '.'
    ensures !StartsWithRun(p + x)
  {
    var s := p + x;
    if |p| >= |Run| {
      assert s[..|Run|] == p[..|Run|];
    } else if |s| >= |Run| {
      assert s[..|Run|][|p|] == x[0] != Run[|p|];
    }
  }

  /** The example of the version normaliser, for any major and minor
      component and any number of unbounded components: `1.2.9999999-dev`,
      `1.2.9999999.9999999-dev` and so on all render as `1.2.x-dev`. */
  lemma CollapseVersionExample(major: char, minor: char, k: nat)
    requires major != '.' && minor != '.' && k >= 1
    ensures Collapse([major, '.', minor] + RunsThen(k, "-dev")) == [major, '.', minor] + ".x-dev"
  {
    var t := RunsThen(k, "-dev");
    CollapseRunsShortTail(k, "-dev");
    assert t == Run + RunsThen(k - 1, "-dev");
    assert t[0] == '.';
    CollapseVersionPrefix(major, minor, t);
  }

  /** A run of segments followed by a tail shorter than one segment, such
      as `-dev`, becomes `.x` followed by the tail. */
  lemma {:induction false} CollapseRunsShortTail(k: nat, t: string)
    requires k >= 1 && |t| < |Run|
    ensures Collapse(RunsThen(k, t)) == ".x" + t
  {
    ShortHasNoRun(t);
    CollapseIdentity(t);
    assert !StartsWithRun(t);
    CollapseMaximalRun(k, t);
  }

  /** A `major.minor` prefix in front of a segment is copied unchanged. */
  lemma CollapseVersionPrefix(major: char, minor: char, t: string)
    requires major != '.' && minor != '.' && t != [] && t[0] == '.'
    ensures Collapse([major, '.', minor] + t) == [major, '.', minor] + Collapse(t)
  {
    var s2 := [minor] + t;
    var s1 := ['.'] + s2;
    CopyNonDot(minor, t);
    CopyDotBeforeDot(s2);
    CopyNonDot(major, s1);
    var c := Collapse(t);
    ThreeCons(major, '.', minor, t);
    ThreeCons(major, '.', minor, c);
    assert Collapse([major] + s1) == [major] + (['.'] + ([minor] + c));
  }

  /** A three-character prefix is three single-character prefixes. */
  lemma ThreeCons(a: char, b: char, c: char, t: string)
    ensures [a, b, c] + t == [a] + ([b] + ([c] + t))
  {
  }

  /** A character other than a dot is copied. */
  lemma CopyNonDot(c: char, t: string)
    requires c != '.'
    ensures Collapse([c] + t) == [c] + Collapse(t)
  {
    NoRunWithoutDot([c] + t);
    CopyStep(c, t);
  }

  /** A dot two places before another dot is copied. */
  lemma CopyDotBeforeDot(t: string)
    requires |t| > 1 && t[1] == '.'
    ensures Collapse(['.'] + t) == ['.'] + Collapse(t)
  {
    NoRunWithDotThird(['.'] + t);
    CopyStep('.', t);
  }

  /** A segment starts with its dot. */
  lemma NoRunWithoutDot(s: string)
    requires s != [] && s[0] != '.'
    ensures !StartsWithRun(s)
  {
    if |s| >= |Run| {
      assert s[..|Run|][0] == s[0];
    }
  }

  /** The third character of a segment is a nine, never a dot. */
  lemma NoRunWithDotThird(s: string)
    requires |s| > 2 && s[2] == '.'
    ensures !StartsWithRun(s)
  {
    if |s| >= |Run| {
      assert s[..|Run|][2] == s[2];
    }
  }

  /** One copy step of the rewrite. */
  lemma CopyStep(c: char, t: string)
    requires !StartsWithRun([c] + t)
    ensures Collapse([c] + t) == [c] + Collapse(t)
  {
    assert ([c] + t)[1..] == t;
  }

  /** Strings shorter than one segment contain none. */
  lemma {:induction false} ShortHasNoRun(s: string)
    requires |s| < |Run|
    ensures !HasRun(s)
  {
    if s != [] {
      ShortHasNoRun(s[1..]);
    }
  }
}

=== FILE: path_repository.dfy ===
/** The path repository: expands its `url` pattern into package
    directories and turns each directory's `composer.json` into one or two
    package records, with a `path` dist, its reference, the transport
    options and a version chosen by a fixed priority. The filesystem, git,
    the environment and the library functions it calls (JSON parsing,
    `sha1`, `serialize`, the version normaliser and the array loader) are
    inputs; `Initialize` is a pure function of them. */
module PathRepository {
  import opened Wrappers
  import opened Php
  import opened VersionGuesser

  // -----------------------------------------------------------------------
  // configuration
  // -----------------------------------------------------------------------

  /** One value of the repository's `options` array. */
  datatype OptionValue =
    | NullValue
    | BoolValue(b: bool)
    | StringValue(s: string)
    | MapValue(entries: map<string, string>)

  type Options = map<string, OptionValue>

  /** PHP `isset($options[$key])`: present and not null. */
  predicate IsSet(options: Options, key: string) {
    key in options && options[key] != NullValue
  }

  /** The repository after construction: its expanded `url` and options. */
  datatype Repository = Repository(url: string, options: Options)

  /** The options a configuration gives, `[]` when it gives none. */
  function GivenOptions(options: Option<Options>): Options {
    if options.Some? then options.value else map[]
  }

  /** The constructor: keeps the given options and, when `relative` is
      not set, sets it to whether the url is not absolute. */
  function NewRepository(url: string, options: Option<Options>, urlIsAbsolute: bool): (repo: Repository)
    ensures repo.url == url
    ensures IsSet(repo.options, "relative")
    ensures IsSet(GivenOptions(options), "relative") ==>
              repo.options["relative"] == GivenOptions(options)["relative"]
    ensures !IsSet(GivenOptions(options), "relative") ==>
              repo.options["relative"] == BoolValue(!urlIsAbsolute)
    ensures forall k :: k != "relative" ==>
              (k in repo.options <==> k in GivenOptions(options))
    ensures forall k :: k != "relative" && k in repo.options ==>
              repo.options[k] == GivenOptions(options)[k]
  {
    var given := GivenOptions(options);
    if IsSet(given, "relative") then Repository(url, given)
    else Repository(url, given["relative" := BoolValue(!urlIsAbsolute)])
  }

  // -----------------------------------------------------------------------
  // records, environment and library
  // -----------------------------------------------------------------------

  /** A parsed `composer.json`: its name, its declared version and every
      other top-level key, kept opaque. */
  datatype Manifest = Manifest(name: Option<string>, version: Option<string>, otherKeys: map<string, string>)

  /** The `reference` key of the dist block: not set, null, or a hash. */
  datatype Reference = Absent | NullReference | Hash(value: string)

  /** The dist block `{type: "path", url, reference}`. */
  datatype Dist = Dist(url: string, reference: Reference)

  /** The array handed to the loader: the manifest with `dist`,
      `transport-options` and `version` injected. */
  datatype PackageRecord = PackageRecord(
    manifest: Manifest,
    dist: Dist,
    transportOptions: Options,
    version: string)

  /** What the filesystem and git say about one matched directory:
      `realpath` of it, the contents of its `composer.json` if the file
      exists, whether it has a `.git` directory, `git rev-parse HEAD` and
      `git log -n1 --pretty=%H` in it, and the guesser's inputs for it. */
  datatype Directory = Directory(
    realPath: string,
    manifestText: Option<string>,
    hasGitDir: bool,
    head: ProcessRun,
    lastCommit: ProcessRun,
    describe: ProcessRun,
    fallbackGuess: Option<VersionData>)

  /** The process environment: the directory separator, whether
      `GLOB_BRACE` is defined, what `glob` returns for a pattern, `is_dir`,
      the state of each matched directory, `COMPOSER_ROOT_VERSION`,
      `git rev-parse HEAD` in the working directory, whether `proc_open`
      exists and whether this is a shell-completion process. */
  datatype Environment = Environment(
    directorySeparator: char,
    globBrace: bool,
    glob: string -> seq<string>,
    isDir: string -> bool,
    directory: string -> Directory,
    rootVersion: Option<string>,
    cwdHead: ProcessRun,
    procOpenAvailable: bool,
    inputCompletion: bool)

  /** Library functions taken as given: `JsonFile::parseJson` (`None`
      where it throws), `sha1`, `serialize`, the version normaliser and
      `ArrayLoader::load` (`Some(message)` where it throws). */
  datatype Library = Library(
    parseJson: string -> Option<Manifest>,
    sha1: string -> string,
    serialize: Options -> string,
    normalize: Normalizer,
    loadError: PackageRecord -> Option<string>)

  /** The exceptions `initialize` lets escape. */
  datatype Error =
    | GlobBraceUnsupported(url: string)
    | UrlDoesNotExist(url: string)
    | ManifestParseFailed(composerFile: string)
    | FeatureLoadFailed(cause: string)
    | PackageLoadFailed(composerFile: string, cause: string)

  // -----------------------------------------------------------------------
  // getUrlMatches
  // -----------------------------------------------------------------------

  predicate HasBrace(url: string) {
    '{' in url || '}' in url
  }

  /** One `glob` result with the directory separator replaced by `/` and
      every trailing `/` removed. */
  function NormalizeMatch(raw: string, separator: char): (r: string)
    ensures |r| <= |raw|
    ensures forall i :: 0 <= i < |r| ==> r[i] == (if raw[i] == separator then '/' else raw[i])
    ensures forall i :: |r| <= i < |raw| ==> raw[i] == '/' || raw[i] == separator
    ensures r == [] || r[|r| - 1] != '/'
    ensures separator != '/' ==> separator !in r
  {
    TrimTrailingSlashes(ReplaceChar(raw, separator, '/'))
  }

  /** `getUrlMatches`: braces without `GLOB_BRACE` are refused; otherwise
      every `glob` result, normalised, in `glob`'s order. */
  function GetUrlMatches(url: string, env: Environment): (r: Result<seq<string>, Error>)
    ensures r.Failure? <==> !env.globBrace && HasBrace(url)
    ensures r.Failure? ==> r.error == GlobBraceUnsupported(url)
    ensures r.Success? ==> |r.value| == |env.glob(url)|
    ensures r.Success? ==> forall i :: 0 <= i < |r.value| ==>
              r.value[i] == NormalizeMatch(env.glob(url)[i], env.directorySeparator)
    ensures r.Success? ==> forall i :: 0 <= i < |r.value| ==>
              r.value[i] == [] || r.value[i][|r.value[i]| - 1] != '/'
  {
    if !env.globBrace && HasBrace(url) then Failure(GlobBraceUnsupported(url))
    else
      var raw := env.glob(url);
      Success(seq(|raw|, i requires 0 <= i < |raw| => NormalizeMatch(raw[i], env.directorySeparator)))
  }

  // -----------------------------------------------------------------------
  // the dist reference
  // -----------------------------------------------------------------------

  /** `$this->options['reference'] ?? 'auto'`. */
  function ReferenceMode(options: Options): OptionValue {
    if IsSet(options, "reference") then options["reference"] else StringValue("auto")
  }

  /** The reference of the dist block: null in mode `none`; the content
      hash in modes `config` and `auto`, the latter replaced by the trimmed
      last commit when the directory has `.git` and `git log` succeeds; no
      key at all for any other mode. */
  function DistReference(mode: OptionValue, contentHash: string, hasGitDir: bool, lastCommit: ProcessRun): (r: Reference)
    ensures mode == StringValue("none") ==> r == NullReference
    ensures mode == StringValue("config") ==> r == Hash(contentHash)
    ensures mode == StringValue("auto") && hasGitDir && lastCommit.exitCode == 0 ==>
              r == Hash(Trim(lastCommit.output))
    ensures mode == StringValue("auto") && !(hasGitDir && lastCommit.exitCode == 0) ==>
              r == Hash(contentHash)
    ensures mode !in {StringValue("none"), StringValue("config"), StringValue("auto")} ==> r == Absent
  {
    var initial :=
      if mode == StringValue("none") then NullReference
      else if mode == StringValue("config") || mode == StringValue("auto") then Hash(contentHash)
      else Absent;
    if mode == StringValue("auto") && hasGitDir && lastCommit.exitCode == 0
    then Hash(Trim(lastCommit.output))
    else initial
  }

  // -----------------------------------------------------------------------
  // transport options
  // -----------------------------------------------------------------------

  predicate IsTransportKey(k: string) {
    k == "symlink" || k == "relative"
  }

  /** `array_intersect_key($options, ['symlink' => true, 'relative' => true])`. */
  function TransportOptions(options: Options): (r: Options)
    ensures forall k :: k in r <==> k in options && IsTransportKey(k)
    ensures forall k :: k in r ==> r[k] == options[k]
  {
    map k | k in options && IsTransportKey(k) :: options[k]
  }

  // -----------------------------------------------------------------------
  // the version
  // -----------------------------------------------------------------------

  /** `$this->options['versions'][$package['name']]` when both are set. */
  function VersionOverride(options: Options, name: Option<string>): (r: Option<string>)
    ensures r.Some? <==>
              name.Some? && "versions" in options && options["versions"].MapValue?
              && name.value in options["versions"].entries
    ensures r.Some? ==> r.value == options["versions"].entries[name.value]
  {
    if name.Some? && "versions" in options && options["versions"].MapValue?
       && name.value in options["versions"].entries
    then Some(options["versions"].entries[name.value])
    else None
  }

  /** The root package's version is carried over: `COMPOSER_ROOT_VERSION`
      is truthy and `git rev-parse HEAD` succeeds in the directory and in
      the working directory with the same output. */
  predicate RootVersionApplies(rootVersion: Option<string>, dirHead: ProcessRun, cwdHead: ProcessRun) {
    && Truthy(rootVersion)
    && dirHead.exitCode == 0
    && cwdHead.exitCode == 0
    && dirHead.output == cwdHead.output
  }

  /** The versions a guess leads to, in emission order: the feature
      version first when there is one, then the primary one; `dev-main`
      when the guess has no truthy pretty version. */
  function GuessedVersions(guess: Option<VersionData>): (vs: seq<string>)
    ensures 1 <= |vs| <= 2
    ensures guess.Some? && Truthy(guess.value.prettyVersion) ==>
              vs[|vs| - 1] == guess.value.prettyVersion.value
    ensures |vs| == 2 <==>
              guess.Some? && Truthy(guess.value.prettyVersion) && Truthy(guess.value.featurePrettyVersion)
    ensures |vs| == 2 ==> vs[0] == guess.value.featurePrettyVersion.value
    ensures !(guess.Some? && Truthy(guess.value.prettyVersion)) ==> vs == ["dev-main"]
  {
    if guess.Some? && Truthy(guess.value.prettyVersion) then
      if Truthy(guess.value.featurePrettyVersion)
      then [guess.value.featurePrettyVersion.value, guess.value.prettyVersion.value]
      else [guess.value.prettyVersion.value]
    else ["dev-main"]
  }

  /** The version of each record of a directory, in emission order. The
      first rule that applies wins: the per-name override, the declared
      version, the carried-over root version, the guess, `dev-main`. */
  function EmittedVersions(
    override: Option<string>, declared: Option<string>,
    rootVersion: Option<string>, dirHead: ProcessRun, cwdHead: ProcessRun,
    guess: Option<VersionData>): (vs: seq<string>)
    ensures 1 <= |vs| <= 2
    ensures override.Some? ==> vs == [override.value]
    ensures override.None? && declared.Some? ==> vs == [declared.value]
    ensures override.None? && declared.None? && RootVersionApplies(rootVersion, dirHead, cwdHead) ==>
              vs == [rootVersion.value]
    ensures override.None? && declared.None? && !RootVersionApplies(rootVersion, dirHead, cwdHead) ==>
              vs == GuessedVersions(guess)
  {
    var preset := if override.Some? then override else declared;
    if preset.Some? then [preset.value]
    else if RootVersionApplies(rootVersion, dirHead, cwdHead) then [rootVersion.value]
    else GuessedVersions(guess)
  }

  // -----------------------------------------------------------------------
  // one directory
  // -----------------------------------------------------------------------

  /** `realpath($url) . DIRECTORY_SEPARATOR . 'composer.json'`. */
  function ComposerFile(env: Environment, url: string): string {
    env.directory(url).realPath + [env.directorySeparator] + "composer.json"
  }

  /** The guesser's inputs for one directory. */
  function GuessInputsFor(env: Environment, url: string): GuessInputs {
    var dir := env.directory(url);
    GuessInputs(env.procOpenAvailable, env.inputCompletion, dir.describe, dir.fallbackGuess)
  }

  /** The dist reference of a directory whose manifest text is `json`. */
  function ReferenceFor(repo: Repository, env: Environment, lib: Library, url: string, json: string): Reference {
    var dir := env.directory(url);
    DistReference(ReferenceMode(repo.options), lib.sha1(json + lib.serialize(repo.options)), dir.hasGitDir, dir.lastCommit)
  }

  /** The versions of the records of a directory with manifest `m`. */
  function VersionsFor(repo: Repository, env: Environment, lib: Library, url: string, m: Manifest): seq<string> {
    var dir := env.directory(url);
    EmittedVersions(
      VersionOverride(repo.options, m.name), m.version,
      env.rootVersion, dir.head, env.cwdHead,
      GuessVersion(GuessInputsFor(env, url), lib.normalize))
  }

  /** The records of a directory, before the loader sees them: the same
      manifest, dist and transport options, one record per version. */
  function RecordsFor(repo: Repository, env: Environment, lib: Library, url: string, json: string, m: Manifest)
    : (rs: seq<PackageRecord>)
    ensures 1 <= |rs| <= 2
    ensures |rs| == |VersionsFor(repo, env, lib, url, m)|
    ensures forall i :: 0 <= i < |rs| ==>
              rs[i] == PackageRecord(m, Dist(url, ReferenceFor(repo, env, lib, url, json)),
                                     TransportOptions(repo.options), VersionsFor(repo, env, lib, url, m)[i])
  {
    var vs := VersionsFor(repo, env, lib, url, m);
    var dist := Dist(url, ReferenceFor(repo, env, lib, url, json));
    var transport := TransportOptions(repo.options);
    seq(|vs|, i requires 0 <= i < |vs| => PackageRecord(m, dist, transport, vs[i]))
  }

  /** Hands the records to the loader in order. A feature record's
      failure escapes as it is; the primary record's failure is wrapped
      with the manifest path. */
  function LoadRecords(records: seq<PackageRecord>, composerFile: string, loadError: PackageRecord -> Option<string>)
    : (r: Result<seq<PackageRecord>, Error>)
    requires 1 <= |records| <= 2
    ensures r.Success? <==> forall i :: 0 <= i < |records| ==> loadError(records[i]).None?
    ensures r.Success? ==> r.value == records
    ensures |records| == 2 && loadError(records[0]).Some? ==>
              r == Failure(FeatureLoadFailed(loadError(records[0]).value))
    ensures (|records| == 1 || loadError(records[0]).None?) && loadError(records[|records| - 1]).Some? ==>
              r == Failure(PackageLoadFailed(composerFile, loadError(records[|records| - 1]).value))
  {
    var primary := records[|records| - 1];
    if |records| == 2 && loadError(records[0]).Some? then Failure(FeatureLoadFailed(loadError(records[0]).value))
    else if loadError(primary).Some? then Failure(PackageLoadFailed(composerFile, loadError(primary).value))
    else Success(records)
  }

  /** The body of the `foreach` of `initialize` for one matched url. */
  function LoadDirectory(repo: Repository, env: Environment, lib: Library, url: string)
    : (r: Result<seq<PackageRecord>, Error>)
    ensures env.directory(url).manifestText.None? ==> r == Success([])
    ensures env.directory(url).manifestText.Some? && lib.parseJson(env.directory(url).manifestText.value).None? ==>
              r == Failure(ManifestParseFailed(ComposerFile(env, url)))
    ensures r.Success? ==> |r.value| <= 2
  {
    var dir := env.directory(url);
    match dir.manifestText
    case None => Success([])
    case Some(json) =>
      match lib.parseJson(json)
      case None => Failure(ManifestParseFailed(ComposerFile(env, url)))
      case Some(m) => LoadRecords(RecordsFor(repo, env, lib, url, json, m), ComposerFile(env, url), lib.loadError)
  }

  // -----------------------------------------------------------------------
  // initialize
  // -----------------------------------------------------------------------

  /** The sequences of `ss` joined in order. */
  function Concat<T>(ss: seq<seq<T>>): seq<T> {
    if ss == [] then [] else ss[0] + Concat(ss[1..])
  }

  /** The records of the directory behind each url, in the urls' order;
      none for a directory that does not load. */
  function RecordsPerDirectory(repo: Repository, env: Environment, lib: Library, urls: seq<string>)
    : (rss: seq<seq<PackageRecord>>)
    ensures |rss| == |urls|
    ensures forall i :: 0 <= i < |urls| && LoadDirectory(repo, env, lib, urls[i]).Success? ==>
              rss[i] == LoadDirectory(repo, env, lib, urls[i]).value
  {
    if urls == [] then []
    else
      var head := match LoadDirectory(repo, env, lib, urls[0])
        case Success(rs) => rs
        case Failure(_) => [];
      [head] + RecordsPerDirectory(repo, env, lib, urls[1..])
  }

  /** The `foreach` of `initialize`: directories in order, stopping at the
      first failure; on success, every directory's records in order. */
  function LoadAll(repo: Repository, env: Environment, lib: Library, urls: seq<string>)
    : (r: Result<seq<PackageRecord>, Error>)
    ensures r.Success? <==> forall i :: 0 <= i < |urls| ==> LoadDirectory(repo, env, lib, urls[i]).Success?
    ensures r.Success? ==> r.value == Concat(RecordsPerDirectory(repo, env, lib, urls))
    ensures r.Success? ==> forall rec :: rec in r.value ==>
              exists url :: url in urls && LoadDirectory(repo, env, lib, url).Success?
                            && rec in LoadDirectory(repo, env, lib, url).value
    ensures r.Failure? ==> exists i :: 0 <= i < |urls| && LoadDirectory(repo, env, lib, urls[i]) == Failure(r.error)
                                      && forall j :: 0 <= j < i ==> LoadDirectory(repo, env, lib, urls[j]).Success?
  {
    if urls == [] then Success([])
    else
      match LoadDirectory(repo, env, lib, urls[0])
      case Failure(e) => Failure(e)
      case Success(head) =>
        match LoadAll(repo, env, lib, urls[1..])
        case Failure(e) => Failure(e)
        case Success(tail) => Success(head + tail)
  }

  /** `initialize`: brace patterns need `GLOB_BRACE`; a pattern matching
      nothing is an error unless it has a wildcard and its literal prefix
      (the pattern with wildcard components stripped by `dirname`) is an
      existing directory, which gives no packages; otherwise every match is
      loaded in order. */
  function Initialize(repo: Repository, env: Environment, lib: Library): (r: Result<seq<PackageRecord>, Error>)
    ensures !env.globBrace && HasBrace(repo.url) ==> r == Failure(GlobBraceUnsupported(repo.url))
    ensures GetUrlMatches(repo.url, env).Success? && GetUrlMatches(repo.url, env).value == [] ==>
              && (r.Success? <==> HasWildcard(repo.url) && env.isDir(StripWildcards(repo.url)))
              && (r.Success? ==> r.value == [])
              && (r.Failure? ==> r.error == UrlDoesNotExist(repo.url))
    ensures GetUrlMatches(repo.url, env).Success? && GetUrlMatches(repo.url, env).value != [] ==>
              r == LoadAll(repo, env, lib, GetUrlMatches(repo.url, env).value)
  {
    match GetUrlMatches(repo.url, env)
    case Failure(e) => Failure(e)
    case Success(matches) =>
      if matches == [] then
        if HasWildcard(repo.url) && env.isDir(StripWildcards(repo.url)) then Success([])
        else Failure(UrlDoesNotExist(repo.url))
      else LoadAll(repo, env, lib, matches)
  }
}

=== FILE: path_repository_properties.dfy ===
/** Properties of the path repository's records, stated per matched
    directory and, where they hold of every record, lifted to
    `Initialize`. */
module PathRepositoryProperties {
  import opened Wrappers
  import opened Php
  import opened NineRuns
  import opened VersionGuesser
  import opened PathRepository

  /** The directory's manifest text is `json` and it parses to `m`. */
  predicate ParsesTo(env: Environment, lib: Library, url: string, json: string, m: Manifest) {
    env.directory(url).manifestText == Some(json) && lib.parseJson(json) == Some(m)
  }

  /** Every record of a directory that loads carries the records built
      for it, in order: one per emitted version. */
  lemma LoadedRecords(repo: Repository, env: Environment, lib: Library, url: string, json: string, m: Manifest)
    requires ParsesTo(env, lib, url, json, m)
    ensures LoadDirectory(repo, env, lib, url).Success? ==>
              LoadDirectory(repo, env, lib, url).value == RecordsFor(repo, env, lib, url, json, m)
  {
  }

  // -----------------------------------------------------------------------
  // how many records
  // -----------------------------------------------------------------------

  /** A directory with a manifest yields exactly one record, or two when
      no version was preset or carried over and the guess has a truthy
      pretty and feature pretty version. */
  lemma RecordCount(repo: Repository, env: Environment, lib: Library, url: string, json: string, m: Manifest)
    requires ParsesTo(env, lib, url, json, m)
    ensures var r := LoadDirectory(repo, env, lib, url);
            var guess := GuessVersion(GuessInputsFor(env, url), lib.normalize);
            r.Success? ==>
              |r.value| == (if && VersionOverride(repo.options, m.name).None?
                               && m.version.None?
                               && !RootVersionApplies(env.rootVersion, env.directory(url).head, env.cwdHead)
                               && guess.Some? && Truthy(guess.value.prettyVersion)
                               && Truthy(guess.value.featurePrettyVersion)
                            then 2 else 1)
  {
    LoadedRecords(repo, env, lib, url, json, m);
  }

  /** When a feature version is guessed, its record comes first and the
      primary record second; the two differ in nothing but the version. */
  lemma FeatureRecordFirst(repo: Repository, env: Environment, lib: Library, url: string, json: string, m: Manifest)
    requires ParsesTo(env, lib, url, json, m)
    requires VersionOverride(repo.options, m.name).None? && m.version.None?
    requires !RootVersionApplies(env.rootVersion, env.directory(url).head, env.cwdHead)
    requires var guess := GuessVersion(GuessInputsFor(env, url), lib.normalize);
             guess.Some? && Truthy(guess.value.prettyVersion) && Truthy(guess.value.featurePrettyVersion)
    ensures var r := LoadDirectory(repo, env, lib, url);
            var guess := GuessVersion(GuessInputsFor(env, url), lib.normalize).value;
            r.Success? ==>
              && |r.value| == 2
              && r.value[0].version == guess.featurePrettyVersion.value
              && r.value[1].version == guess.prettyVersion.value
              && r.value[0] == r.value[1].(version := r.value[0].version)
  {
    LoadedRecords(repo, env, lib, url, json, m);
  }

  /** A guess whose feature pretty version equals its truthy pretty version
      yields two identical records: nothing on the way drops the duplicate. */
  lemma SameVersionTwice(repo: Repository, env: Environment, lib: Library, url: string, json: string, m: Manifest)
    requires ParsesTo(env, lib, url, json, m)
    requires VersionOverride(repo.options, m.name).None? && m.version.None?
    requires !RootVersionApplies(env.rootVersion, env.directory(url).head, env.cwdHead)
    requires var guess := GuessVersion(GuessInputsFor(env, url), lib.normalize);
             guess.Some? && Truthy(guess.value.prettyVersion)
             && guess.value.featurePrettyVersion == guess.value.prettyVersion
    ensures var r := LoadDirectory(repo, env, lib, url);
            r.Success? ==> |r.value| == 2 && r.value[0] == r.value[1]
  {
  }

  // -----------------------------------------------------------------------
  // the version
  // -----------------------------------------------------------------------

  /** A per-name override decides the version whatever git, the root
      version or the manifest say, and there is a single record. */
  lemma OverrideWins(repo: Repository, env: Environment, lib: Library, url: string, json: string, m: Manifest, v: string)
    requires ParsesTo(env, lib, url, json, m)
    requires VersionOverride(repo.options, m.name) == Some(v)
    ensures var r := LoadDirectory(repo, env, lib, url);
            r.Success? ==> |r.value| == 1 && r.value[0].version == v
  {
    LoadedRecords(repo, env, lib, url, json, m);
  }

  /** The root version is carried over exactly when nothing was preset
      and both `git rev-parse HEAD` calls agree; otherwise the guess
      decides. */
  lemma RootVersionCarryOver(repo: Repository, env: Environment, lib: Library, url: string, json: string, m: Manifest)
    requires ParsesTo(env, lib, url, json, m)
    requires VersionOverride(repo.options, m.name).None? && m.version.None?
    ensures var r := LoadDirectory(repo, env, lib, url);
            var dir := env.directory(url);
            r.Success? ==>
              if RootVersionApplies(env.rootVersion, dir.head, env.cwdHead)
              then |r.value| == 1 && r.value[0].version == env.rootVersion.value
              else |r.value| == |GuessedVersions(GuessVersion(GuessInputsFor(env, url), lib.normalize))|
                   && forall i :: 0 <= i < |r.value| ==>
                        r.value[i].version == GuessedVersions(GuessVersion(GuessInputsFor(env, url), lib.normalize))[i]
  {
    LoadedRecords(repo, env, lib, url, json, m);
  }

  /** A directory outside git with no declared or overridden version and
      nothing from the stock guesser gets the single version `dev-main`. */
  lemma DevMainDefault(repo: Repository, env: Environment, lib: Library, url: string, json: string, m: Manifest)
    requires ParsesTo(env, lib, url, json, m)
    requires VersionOverride(repo.options, m.name).None? && m.version.None?
    requires env.directory(url).head.exitCode != 0
    requires env.directory(url).describe.exitCode != 0
    requires env.directory(url).fallbackGuess.None?
    ensures var r := LoadDirectory(repo, env, lib, url);
            r.Success? ==> |r.value| == 1 && r.value[0].version == "dev-main"
  {
    LoadedRecords(repo, env, lib, url, json, m);
  }

  /** End to end from git: with nothing preset or carried over, a tag
      that normalises to a non-`-dev` version becomes the version of the
      single record, trimmed but otherwise verbatim. */
  lemma TagBecomesVersion(repo: Repository, env: Environment, lib: Library, url: string, json: string, m: Manifest)
    requires ParsesTo(env, lib, url, json, m)
    requires VersionOverride(repo.options, m.name).None? && m.version.None?
    requires !RootVersionApplies(env.rootVersion, env.directory(url).head, env.cwdHead)
    requires env.procOpenAvailable && !env.inputCompletion
    requires env.directory(url).describe.exitCode == 0
    requires Truthy(lib.normalize(Trim(env.directory(url).describe.output)))
    requires !IsDevWithRun(lib.normalize(Trim(env.directory(url).describe.output)).value)
    requires Truthy(Some(Trim(env.directory(url).describe.output)))
    ensures var r := LoadDirectory(repo, env, lib, url);
            r.Success? ==> |r.value| == 1 && r.value[0].version == Trim(env.directory(url).describe.output)
  {
    LoadedRecords(repo, env, lib, url, json, m);
    TagGuessShape(GuessInputsFor(env, url), lib.normalize);
  }

  // -----------------------------------------------------------------------
  // the dist reference
  // -----------------------------------------------------------------------

  /** Mode `none` gives a null reference, whatever the git state. */
  lemma ReferenceNoneIsNull(repo: Repository, env: Environment, lib: Library, url: string)
    requires ReferenceMode(repo.options) == StringValue("none")
    ensures var r := LoadDirectory(repo, env, lib, url);
            r.Success? ==> forall i :: 0 <= i < |r.value| ==> r.value[i].dist.reference == NullReference
  {
    var dir := env.directory(url);
    if dir.manifestText.Some? && lib.parseJson(dir.manifestText.value).Some? {
      LoadedRecords(repo, env, lib, url, dir.manifestText.value, lib.parseJson(dir.manifestText.value).value);
    }
  }

  /** Mode `auto` in a git checkout whose `git log` succeeds takes the
      trimmed commit, even when the version came from an override. */
  lemma AutoReferenceIsCommit(repo: Repository, env: Environment, lib: Library, url: string)
    requires ReferenceMode(repo.options) == StringValue("auto")
    requires env.directory(url).hasGitDir && env.directory(url).lastCommit.exitCode == 0
    ensures var r := LoadDirectory(repo, env, lib, url);
            r.Success? ==> forall i :: 0 <= i < |r.value| ==>
              r.value[i].dist.reference == Hash(Trim(env.directory(url).lastCommit.output))
  {
    var dir := env.directory(url);
    if dir.manifestText.Some? && lib.parseJson(dir.manifestText.value).Some? {
      LoadedRecords(repo, env, lib, url, dir.manifestText.value, lib.parseJson(dir.manifestText.value).value);
    }
  }

  /** Mode `config`, and mode `auto` without a usable git log, hash the
      manifest text followed by the serialised options. */
  lemma ContentHashReference(repo: Repository, env: Environment, lib: Library, url: string, json: string, m: Manifest)
    requires ParsesTo(env, lib, url, json, m)
    requires || ReferenceMode(repo.options) == StringValue("config")
             || (&& ReferenceMode(repo.options) == StringValue("auto")
                 && !(env.directory(url).hasGitDir && env.directory(url).lastCommit.exitCode == 0))
    ensures var r := LoadDirectory(repo, env, lib, url);
            r.Success? ==> forall i :: 0 <= i < |r.value| ==>
              r.value[i].dist.reference == Hash(lib.sha1(json + lib.serialize(repo.options)))
  {
    LoadedRecords(repo, env, lib, url, json, m);
  }

  /** Any other reference mode, a string included, sets no reference key. */
  lemma OtherReferenceModeSetsNothing(repo: Repository, env: Environment, lib: Library, url: string)
    requires ReferenceMode(repo.options) !in {StringValue("none"), StringValue("config"), StringValue("auto")}
    ensures var r := LoadDirectory(repo, env, lib, url);
            r.Success? ==> forall i :: 0 <= i < |r.value| ==> r.value[i].dist.reference == Absent
  {
    var dir := env.directory(url);
    if dir.manifestText.Some? && lib.parseJson(dir.manifestText.value).Some? {
      LoadedRecords(repo, env, lib, url, dir.manifestText.value, lib.parseJson(dir.manifestText.value).value);
    }
  }

  // -----------------------------------------------------------------------
  // transport options
  // -----------------------------------------------------------------------

  /** For a constructed repository every record's transport options hold
      `relative`, plus `symlink` when it was configured, and nothing else. */
  lemma TransportOptionsOfConstructed(
    url: string, options: Option<Options>, urlIsAbsolute: bool,
    env: Environment, lib: Library, dirUrl: string)
    ensures var repo := NewRepository(url, options, urlIsAbsolute);
            var r := LoadDirectory(repo, env, lib, dirUrl);
            r.Success? ==> forall i :: 0 <= i < |r.value| ==>
              && "relative" in r.value[i].transportOptions
              && r.value[i].transportOptions["relative"] == repo.options["relative"]
              && ("symlink" in r.value[i].transportOptions <==> "symlink" in GivenOptions(options))
              && r.value[i].transportOptions.Keys <= {"symlink", "relative"}
  {
    var repo := NewRepository(url, options, urlIsAbsolute);
    var dir := env.directory(dirUrl);
    if dir.manifestText.Some? && lib.parseJson(dir.manifestText.value).Some? {
      LoadedRecords(repo, env, lib, dirUrl, dir.manifestText.value, lib.parseJson(dir.manifestText.value).value);
    }
  }

  // -----------------------------------------------------------------------
  // lifted to initialize
  // -----------------------------------------------------------------------

  /** With mode `none`, no record of a whole repository has a reference. */
  lemma InitializeReferenceNone(repo: Repository, env: Environment, lib: Library)
    requires ReferenceMode(repo.options) == StringValue("none")
    ensures var r := Initialize(repo, env, lib);
            r.Success? ==> forall rec :: rec in r.value ==> rec.dist.reference == NullReference
  {
    var r := Initialize(repo, env, lib);
    if r.Success? {
      forall rec | rec in r.value
        ensures rec.dist.reference == NullReference
      {
        var matches := GetUrlMatches(repo.url, env).value;
        var k :| 0 <= k < |r.value| && r.value[k] == rec;
        var i :| 0 <= i < |matches| && LoadDirectory(repo, env, lib, matches[i]).Success?
                 && rec in LoadDirectory(repo, env, lib, matches[i]).value;
        ReferenceNoneIsNull(repo, env, lib, matches[i]);
      }
    }
  }

  /** Joined per-directory records hold at most two records per directory. */
  lemma {:induction false} ConcatAtMostTwoEach(repo: Repository, env: Environment, lib: Library, urls: seq<string>)
    requires forall i :: 0 <= i < |urls| ==> LoadDirectory(repo, env, lib, urls[i]).Success?
    ensures |Concat(RecordsPerDirectory(repo, env, lib, urls))| <= 2 * |urls|
    decreases |urls|
  {
    if urls != [] {
      assert forall i :: 0 <= i < |urls[1..]| ==> urls[1..][i] == urls[i + 1];
      ConcatAtMostTwoEach(repo, env, lib, urls[1..]);
    }
  }

  /** A repository that loads holds at most two records per matched
      directory. */
  lemma InitializeAtMostTwoPerDirectory(repo: Repository, env: Environment, lib: Library)
    requires GetUrlMatches(repo.url, env).Success?
    ensures var r := Initialize(repo, env, lib);
            r.Success? ==> |r.value| <= 2 * |GetUrlMatches(repo.url, env).value|
  {
    var matches := GetUrlMatches(repo.url, env).value;
    if matches != [] && Initialize(repo, env, lib).Success? {
      ConcatAtMostTwoEach(repo, env, lib, matches);
    }
  }

  /** A pattern without wildcards that matches nothing is an error. */
  lemma LiteralMissingUrlFails(repo: Repository, env: Environment, lib: Library)
    requires !HasWildcard(repo.url)
    requires env.glob(repo.url) == []
    ensures Initialize(repo, env, lib) == Failure(UrlDoesNotExist(repo.url))
  {
  }
}

=== FILE: php.dfy ===
/** The PHP runtime functions the path repository and the version guesser
    call, restated over `seq<char>`: `empty()` and truthiness of optional
    strings, `trim`, `rtrim`, `str_replace` of one character, the
    `[*{}]` wildcard test and POSIX `dirname`. */
module Php {
  import opened Wrappers

  // ---------------------------------------------------------------------
  // empty() and truthiness
  // ---------------------------------------------------------------------

  /** PHP `empty()` of an array entry that holds a string or is missing:
      true for a missing or null entry, for "" and for "0". */
  predicate IsEmpty(v: Option<string>) {
    v.None? || v.value == "" || v.value == "0"
  }

  /** PHP truthiness of the same entry, as used by `if ($x)`. */
  predicate Truthy(v: Option<string>) {
    !IsEmpty(v)
  }

  // ---------------------------------------------------------------------
  // trim
  // ---------------------------------------------------------------------

  /** The characters `trim()` strips by default: space, tab, line feed,
      carriage return, NUL and vertical tab. */
  predicate IsTrimSpace(c: char) {
    c == ' ' || c == '\t' || c == '\n' || c == '\r' || c == '\0' || c == '\U{B}'
  }

  /** `ltrim($s)`: the suffix of `s` left after dropping leading trim space. */
  function TrimLeft(s: string): (r: string)
    ensures |r| <= |s| && r == s[|s| - |r|..]
    ensures forall i :: 0 <= i < |s| - |r| ==> IsTrimSpace(s[i])
    ensures r == [] || !IsTrimSpace(r[0])
  {
    if |s| > 0 && IsTrimSpace(s[0]) then
      var r := TrimLeft(s[1..]);
      DropLeadingSpace(s, r);
      r
    else s
  }

  /** Dropping one leading trim space keeps what `ltrim` says of the rest. */
  lemma DropLeadingSpace(s: string, r: string)
    requires |s| > 0 && IsTrimSpace(s[0])
    requires |r| <= |s| - 1 && r == s[1..][|s| - 1 - |r|..]
    requires forall i :: 0 <= i < |s| - 1 - |r| ==> IsTrimSpace(s[1..][i])
    ensures r == s[|s| - |r|..]
    ensures forall i :: 0 <= i < |s| - |r| ==> IsTrimSpace(s[i])
  {
    forall i | 1 <= i < |s| - |r|
      ensures IsTrimSpace(s[i])
    {
      assert s[i] == s[1..][i - 1];
    }
  }

  /** `rtrim($s)`: the prefix of `s` left after dropping trailing trim space. */
  function TrimRight(s: string): (r: string)
    ensures |r| <= |s| && r == s[..|r|]
    ensures forall i :: |r| <= i < |s| ==> IsTrimSpace(s[i])
    ensures r == [] || !IsTrimSpace(r[|r| - 1])
  {
    if |s| > 0 && IsTrimSpace(s[|s| - 1]) then TrimRight(s[..|s| - 1]) else s
  }

  /** `trim($s)`: the infix of `s`, starting where `ltrim` stops, whose
      surroundings are all trim space and which neither starts nor ends
      with trim space. */
  function Trim(s: string): (r: string)
    ensures r == [] || (!IsTrimSpace(r[0]) && !IsTrimSpace(r[|r| - 1]))
    ensures |r| <= |TrimLeft(s)| <= |s| && IsTrimmedInfix(s, |s| - |TrimLeft(s)|, r)
  {
    var l := TrimLeft(s);
    var r := TrimRight(l);
    TrimInfix(s, l, r);
    r
  }

  /** What `ltrim` and then `rtrim` promise makes their result the infix
      that `trim` promises. */
  lemma TrimInfix(s: string, l: string, r: string)
    requires |l| <= |s| && l == s[|s| - |l|..]
    requires forall i :: 0 <= i < |s| - |l| ==> IsTrimSpace(s[i])
    requires l == [] || !IsTrimSpace(l[0])
    requires |r| <= |l| && r == l[..|r|]
    requires forall i :: |r| <= i < |l| ==> IsTrimSpace(l[i])
    requires r == [] || !IsTrimSpace(r[|r| - 1])
    ensures r == [] || (!IsTrimSpace(r[0]) && !IsTrimSpace(r[|r| - 1]))
    ensures 0 <= |s| - |l| <= |s| - |r| && IsTrimmedInfix(s, |s| - |l|, r)
  {
    var i := |s| - |l|;
    if r != [] {
      assert r[0] == l[0];
    }
    assert s[i..i + |r|] == s[i..][..|r|];
    forall k | i + |r| <= k < |s|
      ensures IsTrimSpace(s[k])
    {
      assert s[k] == l[k - i];
    }
  }

  /** `r` sits at offset `i` of `s` and everything around it is trim space. */
  ghost predicate IsTrimmedInfix(s: string, i: int, r: string)
    requires 0 <= i <= |s| - |r|
  {
    && s[i..i + |r|] == r
    && (forall k :: 0 <= k < i ==> IsTrimSpace(s[k]))
    && (forall k :: i + |r| <= k < |s| ==> IsTrimSpace(s[k]))
  }

  /** Trimming is idempotent: a second `trim` finds nothing to strip. */
  lemma TrimIdempotent(s: string)
    ensures Trim(Trim(s)) == Trim(s)
  {
    var t := Trim(s);
    if t != [] {
      assert TrimLeft(t) == t;
      assert TrimRight(t) == t;
    }
  }

  // ---------------------------------------------------------------------
  // str_replace of one character, rtrim with an explicit character
  // ---------------------------------------------------------------------

  /** `str_replace($from, $to, $s)` for one-character needle and replacement. */
  function ReplaceChar(s: string, from: char, to: char): (r: string)
    ensures |r| == |s|
    ensures forall i :: 0 <= i < |s| ==> r[i] == (if s[i] == from then to else s[i])
  {
    if |s| == 0 then [] else ReplaceChar(s[..|s| - 1], from, to) + [if s[|s| - 1] == from then to else s[|s| - 1]]
  }

  /** `rtrim($s, "/")`: drops every trailing slash, not just one. */
  function TrimTrailingSlashes(s: string): (r: string)
    ensures |r| <= |s| && r == s[..|r|]
    ensures forall i :: |r| <= i < |s| ==> s[i] == '/'
    ensures r == [] || r[|r| - 1] != '/'
  {
    if |s| > 0 && s[|s| - 1] == '/' then TrimTrailingSlashes(s[..|s| - 1]) else s
  }

  // ---------------------------------------------------------------------
  // the glob wildcard test and dirname
  // ---------------------------------------------------------------------

  /** A character of the pattern class `[*{}]`. */
  predicate IsWildcard(c: char) {
    c == '*' || c == '{' || c == '}'
  }

  /** `Preg::isMatch('{[*{}]}', $s)`. */
  predicate HasWildcard(s: string) {
    exists i :: 0 <= i < |s| && IsWildcard(s[i])
  }

  /** Drops the trailing run of non-slash characters (the last path
      component once trailing slashes are gone). */
  function DropLastComponent(s: string): (r: string)
    ensures |r| <= |s| && r == s[..|r|]
    ensures forall i :: |r| <= i < |s| ==> s[i] != '/'
    ensures r == [] || r[|r| - 1] == '/'
  {
    if |s| > 0 && s[|s| - 1] != '/' then DropLastComponent(s[..|s| - 1]) else s
  }

  /** PHP `dirname()` with the POSIX separator `/`: "" stays "", a path of
      slashes gives "/", a single component gives ".", and otherwise the
      last component is removed together with the slashes around it (a
      result that would be empty is "/"). */
  function Dirname(s: string): (r: string)
    ensures s == [] <==> r == []
    ensures r == "." || IsPrefix(r, s)
    ensures r != "/" ==> r == [] || r[|r| - 1] != '/'
    ensures r == "/" ==> s != [] && s[0] == '/' && SingleComponentFrom(TrimTrailingSlashes(s), 0)
    ensures r == "." ==> (s != [] && s[0] != '/' && SingleComponentFrom(TrimTrailingSlashes(s), 0)) || IsParentOf(r, s)
    ensures r != [] && r != "." && r != "/" ==> IsParentOf(r, s)
  {
    if s == [] then []
    else
      var a := TrimTrailingSlashes(s);
      if a == [] then "/"
      else
        var b := DropLastComponent(a);
        if b == [] then "."
        else
          var c := TrimTrailingSlashes(b);
          if c == [] then "/" else c
  }

  predicate IsPrefix(p: string, s: string) {
    |p| <= |s| && s[..|p|] == p
  }

  /** From index `k` on, `a` is some slashes and then at most one run of
      non-slash characters: no slash follows a non-slash there. */
  predicate SingleComponentFrom(a: string, k: nat) {
    forall i, j :: k <= i < j < |a| && a[i] != '/' ==> a[j] != '/'
  }

  /** `p` is the parent directory of `s`: without its trailing slashes, `s`
      is `p`, one or more slashes, and one non-empty last component. */
  predicate IsParentOf(p: string, s: string) {
    var a := TrimTrailingSlashes(s);
    && |p| < |a|
    && a[..|p|] == p
    && a[|p|] == '/'
    && SingleComponentFrom(a, |p|)
  }

  /** A measure that `dirname` lowers on every path with a wildcard: "."
      weighs least, any other path its length plus one. */
  function DirnameWeight(s: string): nat {
    if s == "." then 0 else |s| + 1
  }

  /** On a path with a wildcard, `dirname` strictly lowers the weight,
      which is why the stripping loop of the path repository terminates. */
  lemma DirnameShrinks(s: string)
    requires HasWildcard(s)
    ensures DirnameWeight(Dirname(s)) < DirnameWeight(s)
  {
    var w :| 0 <= w < |s| && IsWildcard(s[w]);
    assert s != ".";
    var r := Dirname(s);
    if r == "/" {
      // the slash is the first character of s and the wildcard another one
      assert s[0] == '/';
      assert w != 0;
    } else if r != "." {
      var a := TrimTrailingSlashes(s);
      var b := DropLastComponent(a);
      assert a != [];
      assert |b| < |a| by {
        assert a[|a| - 1] != '/';
      }
    }
  }

  /** `t[w]` is a wildcard of the first component of `t`: before it, no
      slash follows a non-slash. */
  predicate FirstComponentWildcardAt(t: string, w: nat) {
    w < |t| && IsWildcard(t[w]) && forall i, j :: 0 <= i < j < w && t[i] != '/' ==> t[j] != '/'
  }

  /** Some wildcard of `t` lies in its first component. */
  predicate WildcardInFirstComponent(t: string) {
    exists w: nat :: w < |t| && FirstComponentWildcardAt(t, w)
  }

  /** A wildcard at or after `k` in a path that is a single component from
      `k` on lies in the first component of the path's tail from `k`. */
  lemma WildcardInTail(s: string, k: nat, w: nat)
    requires k <= w < |s| && IsWildcard(s[w])
    requires SingleComponentFrom(TrimTrailingSlashes(s), k)
    ensures WildcardInFirstComponent(s[k..])
  {
    var a := TrimTrailingSlashes(s);
    assert w < |a|;
    var t := s[k..];
    assert IsWildcard(t[w - k]);
    forall i, j | 0 <= i < j < w - k && t[i] != '/'
      ensures t[j] != '/'
    {
      assert t[i] == s[k + i] == a[k + i];
      assert t[j] == s[k + j] == a[k + j];
    }
    assert FirstComponentWildcardAt(t, w - k);
  }

  /** A wildcard in the first component stays there when the path grows. */
  lemma WildcardInFirstComponentExtends(t: string, u: string)
    requires IsPrefix(t, u) && WildcardInFirstComponent(t)
    ensures WildcardInFirstComponent(u)
  {
    var w: nat :| w < |t| && FirstComponentWildcardAt(t, w);
    assert u[..w] == t[..w] && u[w] == t[w];
    assert FirstComponentWildcardAt(u, w);
  }

  /** The property of the stripped path one `dirname` step up. */
  predicate StripsToWildcardParent(s: string, r: string) {
    || (r == "." && WildcardInFirstComponent(s))
    || (IsPrefix(r, s) && WildcardInFirstComponent(s[|r|..]))
  }

  /** `r` names a directory on the way to `s`: `.`, `/`, or a path without a
      trailing slash that `s` continues with a slash. */
  predicate IsDirectoryBefore(r: string, s: string) {
    && r != []
    && (r != "." && r != "/" ==> |r| < |s| && s[|r|] == '/' && r[|r| - 1] != '/')
  }

  /** The parent of an absolute path is absolute and never ".". */
  lemma DirnameKeepsRoot(s: string)
    requires s != [] && s[0] == '/'
    ensures Dirname(s) != [] && Dirname(s) != "." && Dirname(s)[0] == '/'
  {
    var d := Dirname(s);
    if d == "." {
      assert false;
    } else if d != "/" {
      assert IsPrefix(d, s);
      assert d[0] == s[0];
    }
  }

  /** `DirnameKeepsRoot` for any non-empty path that starts with a slash. */
  lemma DirnameKeepsRootIfAbsolute(s: string)
    requires s != []
    ensures s[0] == '/' ==> Dirname(s) != [] && Dirname(s) != "." && Dirname(s)[0] == '/'
  {
    if s[0] == '/' {
      DirnameKeepsRoot(s);
    }
  }

  /** The last step of the stripping loop ends on a directory before `s`. */
  lemma StripLastShape(s: string)
    requires HasWildcard(s)
    ensures IsDirectoryBefore(Dirname(s), s)
  {
    var d := Dirname(s);
    if d != "." && d != "/" {
      var a := TrimTrailingSlashes(s);
      assert IsParentOf(d, s);
      assert s[|d|] == a[|d|];
    }
  }

  /** A directory before `Dirname(s)` is a directory before `s`. */
  lemma StripEarlierShape(s: string, r: string)
    requires HasWildcard(Dirname(s)) && IsDirectoryBefore(r, Dirname(s))
    ensures IsDirectoryBefore(r, s)
  {
    var d := Dirname(s);
    assert d != "." && IsPrefix(d, s) by {
      if d == "." {
        assert false;
      }
    }
    if r != "." && r != "/" {
      assert s[|r|] == d[|r|];
    }
  }

  /** The last step of the stripping loop: when `Dirname(s)` is free of
      wildcards, the wildcard of `s` sits in the component after it. */
  lemma StripLastStep(s: string)
    requires HasWildcard(s) && !HasWildcard(Dirname(s))
    ensures StripsToWildcardParent(s, Dirname(s))
  {
    var d := Dirname(s);
    var w :| 0 <= w < |s| && IsWildcard(s[w]);
    if d == "/" {
      WildcardInTail(s, 1, w);
    } else if d == "." && !IsParentOf(d, s) {
      WildcardInTail(s, 0, w);
      assert s[0..] == s;
    } else {
      ParentPrecedesWildcard(s, d, w);
    }
  }

  /** A wildcard of `s` outside its wildcard-free parent `d` lies in the
      component after `d`. */
  lemma ParentPrecedesWildcard(s: string, d: string, w: nat)
    requires IsParentOf(d, s) && !HasWildcard(d)
    requires w < |s| && IsWildcard(s[w])
    ensures IsPrefix(d, s) && WildcardInFirstComponent(s[|d|..])
  {
    var a := TrimTrailingSlashes(s);
    assert s[..|d|] == d by {
      assert a[..|d|] == s[..|d|];
    }
    assert w >= |d| by {
      if w < |d| {
        assert false;
      }
    }
    WildcardInTail(s, |d|, w);
  }

  /** An earlier step of the stripping loop: what holds of `Dirname(s)` and
      the path it strips to carries over to `s`. */
  lemma StripEarlierStep(s: string, r: string)
    requires HasWildcard(Dirname(s)) && StripsToWildcardParent(Dirname(s), r)
    ensures StripsToWildcardParent(s, r)
  {
    var d := Dirname(s);
    assert d != "." && IsPrefix(d, s) by {
      if d == "." {
        assert false;
      }
    }
    if r == "." && WildcardInFirstComponent(d) {
      WildcardInFirstComponentExtends(d, s);
    } else {
      TailWildcardExtends(r, d, s);
    }
  }

  /** The tail of `d` after its prefix `r` is a prefix of the tail of `s`
      after `r`, so a wildcard in its first component carries over. */
  lemma TailWildcardExtends(r: string, d: string, s: string)
    requires IsPrefix(d, s) && IsPrefix(r, d) && WildcardInFirstComponent(d[|r|..])
    ensures IsPrefix(r, s) && WildcardInFirstComponent(s[|r|..])
  {
    assert s[..|r|] == d[..|r|];
    assert s[|r|..][..|d| - |r|] == d[|r|..];
    WildcardInFirstComponentExtends(d[|r|..], s[|r|..]);
  }

  /** PHP's path-stripping loop: while the path holds a wildcard, replace it
      by its `dirname`. The result is free of wildcards, and it is the
      deepest such ancestor: the component right after it (or, for ".", the
      first component) holds a wildcard. */
  function StripWildcards(s: string): (r: string)
    ensures !HasWildcard(r)
    ensures r == "." || IsPrefix(r, s)
    ensures !HasWildcard(s) ==> r == s
    ensures HasWildcard(s) ==> || (r == "." && WildcardInFirstComponent(s))
                               || (IsPrefix(r, s) && WildcardInFirstComponent(s[|r|..]))
    ensures HasWildcard(s) ==> IsDirectoryBefore(r, s)
    ensures s != [] && s[0] == '/' ==> r != [] && r != "." && r[0] == '/'
    decreases DirnameWeight(s)
  {
    if !HasWildcard(s) then s
    else
      DirnameShrinks(s);
      DirnameKeepsRootIfAbsolute(s);
      var r := StripWildcards(Dirname(s));
      if HasWildcard(Dirname(s)) then
        StripEarlierStep(s, r);
        StripEarlierShape(s, r);
        r
      else
        StripLastStep(s);
        StripLastShape(s);
        r
  }
}

=== FILE: version_guesser.dfy ===
/** The version guesser of the path repository: it asks git for the
    nearest tag first, post-processes a tag it can normalise, and otherwise
    defers to the stock branch-based guesser, whose answer is returned as
    it is. Process execution, the environment and the semantic-version
    normaliser are inputs. */
module VersionGuesser {
  import opened Wrappers
  import opened Php
  import opened NineRuns

  /** The version array the guesser passes around. `version` is the
      normalised form; the optional keys are missing when `None`. The stock
      guesser may leave `pretty_version` null, hence `Option`. */
  datatype VersionData = VersionData(
    version: string,
    prettyVersion: Option<string>,
    featureVersion: Option<string>,
    featurePrettyVersion: Option<string>)
  {
    /** Neither feature key is set. */
    predicate HasNoFeature() {
      featureVersion.None? && featurePrettyVersion.None?
    }
  }

  /** Exit code and captured standard output of one git invocation. */
  datatype ProcessRun = ProcessRun(exitCode: int, output: string)

  /** What `guessVersion` reads besides the package: whether `proc_open`
      exists, whether this is a shell-completion process, the outcome of
      `git describe --tags --abbrev=0` in the package directory and the
      stock guesser's answer for the same package. */
  datatype GuessInputs = GuessInputs(
    procOpenAvailable: bool,
    inputCompletion: bool,
    describe: ProcessRun,
    fallback: Option<VersionData>)

  /** The semantic-version normaliser: `None` where it throws. */
  type Normalizer = string -> Option<string>

  /** A `-dev` version holding a `.9999999` placeholder, the shape whose
      pretty form gets rewritten. */
  predicate IsDevWithRun(v: string) {
    |v| >= 4 && v[|v| - 4..] == "-dev" && HasRun(v)
  }

  /** The feature keys duplicate the primary ones in both forms. */
  predicate FeatureRedundant(d: VersionData) {
    && Truthy(d.featureVersion)
    && d.featureVersion == Some(d.version)
    && d.featurePrettyVersion == d.prettyVersion
  }

  /** `postprocess`: drops redundant feature keys, then renders the
      placeholder runs of `-dev` versions as `.x` in the pretty forms. */
  function Postprocess(d: VersionData): (r: VersionData)
    // the normalised forms are never rewritten; feature keys only vanish
    ensures r.version == d.version
    ensures r.featureVersion == (if FeatureRedundant(d) then None else d.featureVersion)
    // the feature keys go exactly when they duplicate the primary ones
    ensures FeatureRedundant(d) ==> r.HasNoFeature()
    ensures !FeatureRedundant(d) && !(Truthy(d.featureVersion) && IsDevWithRun(d.featureVersion.value))
            ==> r.featurePrettyVersion == d.featurePrettyVersion
    // a rewritten pretty form is the normalised form with runs collapsed
    ensures IsDevWithRun(d.version) ==> r.prettyVersion == Some(Collapse(d.version))
    ensures !IsDevWithRun(d.version) ==> r.prettyVersion == d.prettyVersion
    ensures !FeatureRedundant(d) && Truthy(d.featureVersion) && IsDevWithRun(d.featureVersion.value)
            ==> r.featurePrettyVersion == Some(Collapse(d.featureVersion.value))
  {
    var deduped :=
      if FeatureRedundant(d) then d.(featureVersion := None, featurePrettyVersion := None) else d;
    var pretty :=
      if IsDevWithRun(deduped.version)
      then deduped.(prettyVersion := Some(Collapse(deduped.version)))
      else deduped;
    if Truthy(pretty.featureVersion) && IsDevWithRun(pretty.featureVersion.value)
    then pretty.(featurePrettyVersion := Some(Collapse(pretty.featureVersion.value)))
    else pretty
  }

  /** `guessGitTagVersion`: a successful `git describe` whose trimmed
      output normalises gives that tag, normalised and verbatim, with no
      feature keys; anything else gives nothing. */
  function GuessGitTagVersion(describe: ProcessRun, normalize: Normalizer): (r: Option<VersionData>)
    ensures r.Some? <==> describe.exitCode == 0 && normalize(Trim(describe.output)).Some?
    ensures r.Some? ==> r.value.version == normalize(Trim(describe.output)).value
    ensures r.Some? ==> r.value.prettyVersion == Some(Trim(describe.output))
    ensures r.Some? ==> r.value.HasNoFeature()
  {
    if describe.exitCode != 0 then None
    else
      var tag := Trim(describe.output);
      match normalize(tag)
      case None => None
      case Some(v) => Some(VersionData(v, Some(tag), None, None))
  }

  /** `guessVersion`: no guess without `proc_open` or inside shell
      completion; otherwise the post-processed tag when it has a non-empty
      normalised version; otherwise the stock guesser's answer, untouched. */
  function GuessVersion(inputs: GuessInputs, normalize: Normalizer): (r: Option<VersionData>)
    ensures !inputs.procOpenAvailable || inputs.inputCompletion ==> r.None?
    ensures inputs.procOpenAvailable && !inputs.inputCompletion ==>
              var tag := GuessGitTagVersion(inputs.describe, normalize);
              if tag.Some? && Truthy(Some(tag.value.version))
              then r == Some(Postprocess(tag.value))
              else r == inputs.fallback
  {
    if !inputs.procOpenAvailable then None
    else if inputs.inputCompletion then None
    else
      var tag := GuessGitTagVersion(inputs.describe, normalize);
      if tag.Some? && Truthy(Some(tag.value.version)) then Some(Postprocess(tag.value))
      else inputs.fallback
  }

  // -----------------------------------------------------------------------
  // properties
  // -----------------------------------------------------------------------

  /** Bailing out does not look at git or at the stock guesser at all:
      any two answers for the same flags agree. */
  lemma BailOutIgnoresGit(a: GuessInputs, b: GuessInputs, normalize: Normalizer)
    requires !a.procOpenAvailable || a.inputCompletion
    requires a.procOpenAvailable == b.procOpenAvailable && a.inputCompletion == b.inputCompletion
    ensures GuessVersion(a, normalize) == GuessVersion(b, normalize) == None
  {
  }

  /** A tag guess reaches the caller with its version normalised, its
      pretty form the trimmed tag unless that was a `-dev` placeholder
      version (then the collapsed form, free of placeholders), and never
      with feature keys. */
  lemma TagGuessShape(inputs: GuessInputs, normalize: Normalizer)
    requires inputs.procOpenAvailable && !inputs.inputCompletion
    requires inputs.describe.exitCode == 0
    requires normalize(Trim(inputs.describe.output)).Some?
    requires Truthy(normalize(Trim(inputs.describe.output)))
    ensures var r := GuessVersion(inputs, normalize);
            var v := normalize(Trim(inputs.describe.output)).value;
            && r.Some?
            && r.value.version == v
            && r.value.HasNoFeature()
            && (IsDevWithRun(v) ==> r.value.prettyVersion == Some(Collapse(v)) && !HasRun(Collapse(v)))
            && (!IsDevWithRun(v) ==> r.value.prettyVersion == Some(Trim(inputs.describe.output)))
  {
    var v := normalize(Trim(inputs.describe.output)).value;
    CollapseHasNoRun(v);
  }

  /** Without feature keys, post-processing is idempotent. */
  lemma PostprocessIdempotentWithoutFeature(d: VersionData)
    requires d.HasNoFeature()
    ensures Postprocess(Postprocess(d)) == Postprocess(d)
  {
  }

  /** In general a second post-processing changes the result exactly when
      the first one produced feature keys that now duplicate the primary
      ones. */
  lemma PostprocessIdempotentIff(d: VersionData)
    ensures Postprocess(Postprocess(d)) == Postprocess(d) <==> !FeatureRedundant(Postprocess(d))
  {
    var p := Postprocess(d);
    if FeatureRedundant(p) {
      assert Postprocess(p).featureVersion.None?;
    }
  }

  /** Post-processing is not idempotent with feature keys: distinct pretty
      forms of the same `-dev` placeholder version become equal, and only a
      second pass drops them. */
  lemma PostprocessNotIdempotent(d: VersionData)
    requires d.version == "1" + Run + "-dev" && d.featureVersion == Some(d.version)
    requires d.prettyVersion == Some("a") && d.featurePrettyVersion == Some("b")
    ensures Postprocess(Postprocess(d)) != Postprocess(d)
  {
    assert HasRun(d.version) by {
      assert d.version[1..][..|Run|] == Run;
    }
    assert IsDevWithRun(d.version);
    assert !FeatureRedundant(d);
    PostprocessIdempotentIff(d);
  }

  /** Whatever the stock guesser says is what the caller gets when
      `git describe` fails, when its tag does not normalise or when it
      normalises to an empty version: the answer is not post-processed,
      even a version that post-processing would rewrite. */
  lemma FallbackNotPostprocessed(inputs: GuessInputs, normalize: Normalizer)
    requires inputs.procOpenAvailable && !inputs.inputCompletion
    requires || inputs.describe.exitCode != 0
             || IsEmpty(normalize(Trim(inputs.describe.output)))
    ensures GuessVersion(inputs, normalize) == inputs.fallback
  {
  }
}

=== FILE: wrappers.dfy ===
/** The two wrappers the model uses: `Option` for PHP's nullable values and
    missing array keys, `Result` for operations that either produce a
    value or throw. */
module Wrappers {

  /** A value that may be absent: PHP's `null`, `false` from an environment
      read, or an array key that is not set. */
  datatype Option<+T> = None | Some(value: T)

  /** Either a computed value or the exception the source would throw. */
  datatype Result<+T, +E> = Success(value: T) | Failure(error: E)
}
